=== FILE: README.md ===
# N×N tic-tac-toe engine — a Dafny model

This project models the engine of a console tic-tac-toe game played on an N×N board
by two or more players, humans and bots, each marking cells with a one-character
symbol. It covers the following parts:

- the `Game` state machine: move validation, one move attempt, winner checking,
  undo, the current player, construction and the builder's configuration check;
- the row winning strategy, which keeps an incremental `(row, symbol) → count` map;
- board construction;
- the Easy bot policy, bot players and the difficulty → policy factory.

Everything is a pure function over immutable datatypes. A game is a record
(`Games.Game`). The board is a `seq<seq<Cell>>`. A move is `(row, col, player)`.
A strategy's counts are a `map<(int, char), int>`.

Modules follow the source layout:

| file | module | models |
|---|---|---|
| wrappers.dfy | `Wrappers` | Option and Result, used for Java's null and exceptions |
| players.dfy | `Players` | player data, player type, difficulty |
| factory.dfy | `BotPlayingStrategyFactory` | difficulty → policy |
| board.dfy | `Boards` | cells, moves, the board and its constructor |
| easy_bot.dfy | `EasyBotPlayingStrategy` | first EMPTY cell in row-major order |
| bot_player.dfy | `BotPlayers` | the bot constructor and a bot's move |
| row_winning.dfy | `RowWinning` | the row strategy's counts, `checkWinner`, `handleUndo` |
| validation.dfy | `DimensionAndPlayerCount` | the start-up configuration check |
| game.dfy | `Games` | the game: validate, move, check winner, undo, builder |
| game_properties.dfy | `GameProperties` | the undo round trip, counts vs. board, win meaning |
| scenario.dfy | `Scenario` | a 3×3 game, checked by one or more row strategies, in which X wins on row 0 and then undoes the win |
| turn_arith.dfy | `TurnArith` | remainder facts for the round-robin turn index |

Things the model makes explicit:

- **One move attempt.** `Games.MakeMove(g, row, col)` is one attempt by the player
  due. An invalid attempt leaves the game unchanged. The caller supplies the
  coordinates, which stand for a human's input. Both player kinds build their move
  with themselves as the player, so the move's player is always the current player.
- **Undo can fail.** `Games.Undo` returns `Failure(NullDereference)` when some
  strategy has no entry for the undone move. In the source, `handleUndo` then
  dereferences null.
- **Skipped strategies drift.** Winner checking stops at the first strategy that
  reports a win, but undo rolls back every strategy. So undoing a winning move
  decrements strategies that never counted it. The round-trip lemmas state count
  restoration only for the strategies that were consulted. For the others,
  `GameProperties.UndoOfWinDesyncsSkippedStrategies` proves that their counts no
  longer agree with the board. `Scenario.RowZeroWinThenUndo` shows this on a concrete
  game with two or more row strategies.
- **Invariant.** `Games.Valid` holds of every built game and is kept by every move
  and undo. It says:
  - the board has its constructed shape;
  - a cell has an owner exactly when it is FILLED;
  - turns go round-robin: move k was made by player k mod n, and the index is
    |moves| mod n;
  - the state is GAME_WON exactly when there is a winner;
  - every move of the history sits on its own FILLED cell, owned by its player;
  - the board has exactly as many FILLED cells as the history has moves;
  - a DRAW game has a history of dimension² moves.

Two behaviours of the code that a reader might not expect:

- An unlisted difficulty gives the bot a null strategy; it does not fail at
  construction. Asking such a bot for a move is modelled as `NoStrategy`.
- Undo right after a move does not give back the exact previous game. It sets the
  state to IN_PROGRESS and the winner to none. Strategies the win skipped end one
  lower. A count entry created by the move stays present at 0.

## Model

| member | source | states |
|---|---|---|
| Players.NewHumanPlayer | src/models/HumanPlayer.java:9-11 | a human player keeps id, name and symbol and has type HUMAN |
| BotPlayingStrategyFactory.GetBotPlayingStrategy | src/factories/BotPlayingStrategyFactory.java:8-20 | EASY, MEDIUM and HARD all yield the Easy policy; any other level yields no strategy (null) |
| BotPlayers.NewBotPlayer | src/models/BotPlayer.java:13-17 | a bot has type BOT and keeps its difficulty; it gets the Easy policy exactly when the factory lists its level, otherwise none |
| BotPlayers.MakeMove | src/models/BotPlayer.java:22-27 | the bot's move has the bot as player and exactly the cell its bound policy returns, the first EMPTY one; a full board gives a move without a cell; a bot without a strategy dereferences null |
| BotPlayers.ListedBotPlaysFirstEmptyCell | src/factories/BotPlayingStrategyFactory.java:9-16 | a bot built with any listed level, MEDIUM and HARD included, plays the first EMPTY cell of the board, inside the board, and offers no cell only on a full board |
| Boards.NewBoard | src/models/Board.java:14-27 | the constructor keeps the given dimension and builds that many rows of that many EMPTY cells; the cell at (i, j) has row i and column j; the board is well formed |
| EasyBotPlayingStrategy.FirstEmptyInRow | src/strategies/EasyBotPlayingStrategy.java:15-19 | the inner scan returns the first EMPTY cell of the row at or after the start column, or none when the rest of the row is filled |
| EasyBotPlayingStrategy.FirstEmptyFrom | src/strategies/EasyBotPlayingStrategy.java:14-21 | the outer scan returns the row-major first EMPTY position among the remaining rows, every earlier cell being non-EMPTY, or none when all of them are filled |
| EasyBotPlayingStrategy.MakeMove | src/strategies/EasyBotPlayingStrategy.java:13-22 | returns a grid cell that is EMPTY and the first such in row-major order; returns null exactly when no cell is EMPTY |
| EasyBotPlayingStrategy.MoveIsOnBoard | src/strategies/EasyBotPlayingStrategy.java:14-18 | on a well-formed board the returned cell has coordinates in [0, dimension) and is the grid element at those coordinates |
| RowWinning.NewRowWinningStrategy | src/strategies/RowWinningStrategy.java:15-17 | a new strategy starts with an empty map, so every (row, symbol) count reads 0 and no entry is present yet |
| RowWinning.CheckWinner | src/strategies/RowWinningStrategy.java:20-45 | the count of (move's row, mover's symbol) grows by exactly one from 0 when absent; that entry becomes present; no other entry changes; the result is true iff the new count equals the board dimension |
| RowWinning.HandleUndo | src/strategies/RowWinningStrategy.java:48-60 | dereferences null iff the (row, symbol) entry is absent; otherwise that count shrinks by exactly one and no other entry changes or disappears |
| RowWinning.CheckThenUndoRestoresCounts | src/strategies/RowWinningStrategy.java:29-59 | undo right after checking the same move succeeds and gives back every count; entries only grow, so one may remain at 0 |
| RowWinning.CheckKeepsSync | src/strategies/RowWinningStrategy.java:38-44 | if counts equal the marks of each symbol in each row before, they still do after the move is placed and checked; the check is true iff every cell of the move's row bears the mover's symbol |
| RowWinning.UndoKeepsSync | src/strategies/RowWinningStrategy.java:56-59 | with counts equal to the marks on the board, rolling back the last mark of a cell never dereferences null and keeps counts equal to the marks after clearing |
| DimensionAndPlayerCount.Validate | src/validations/gameValidations/DimensionAndPlayerCount.java:10-16 | player count ≤ 1 throws the player-count error; otherwise count ≥ dimension throws the mismatch error; it returns normally iff 1 < count < dimension, which forces dimension ≥ 3 |
| Games.NewGame | src/models/Game.java:22-28 | a new game has a fresh board of the dimension, the given players and strategies, state IN_PROGRESS, empty history, index 0 and no winner; it satisfies the game invariant |
| Games.Build | src/models/Game.java:234-247 | the builder fails exactly when the validation throws, with that validation's error, and then constructs no game; otherwise the game is the constructor's, satisfies the invariant, and has dimension ≥ 3 and 2 ≤ players < dimension |
| Games.ValidateMove | src/models/Game.java:91-115 | a move is accepted iff 0 ≤ row, col < dimension and the board's cell there is EMPTY; the accepted cell carries the move's coordinates and has no owner |
| Games.CheckWinner | src/models/Game.java:180-188 | strategies are consulted in list order and checking stops at the first true; exactly the first `consulted` strategies record the move, the rest are untouched; the result is true iff the last consulted one reported a win |
| Games.MakeMove | src/models/Game.java:118-147 | an invalid attempt changes nothing; a valid one fills exactly that cell for the current player and leaves every other cell alone; it appends the move; a win gives GAME_WON with the mover as winner; otherwise dimension² moves give DRAW with no winner; otherwise state and winner stay; the index becomes (i+1) mod n; the invariant is kept |
| Games.CommitKeepsValid | src/models/Game.java:129-146 | a committed move keeps the invariant: the new cell differs from every cell in the history, and the mover is player (history length) mod n |
| Games.HandleUndoAll | src/models/Game.java:166-168 | every strategy is rolled back for the move; the loop fails iff some strategy lacks the entry |
| Games.Undo | src/models/Game.java:150-177 | empty history changes nothing; otherwise undo fails iff some strategy lacks the move's entry; on success the last move is removed, its cell is EMPTY with no owner, every other cell is unchanged, every strategy is rolled back, the state is IN_PROGRESS with no winner, the index is (i−1+n) mod n, and the invariant is kept |
| Games.RemoveKeepsValid | src/models/Game.java:157-176 | removing the last move, clearing its cell and stepping the index back keeps the invariant |
| Games.GetCurrentPlayer | src/models/Game.java:191-194 | the current player is one of the game's players; it is the player of the most recent move whenever there is one, and the last listed player when the history is empty |
| GameProperties.UndoAfterMakeMove | src/models/Game.java:118-177 | undo right after a committed move fails iff a strategy skipped by the win lacks the move's entry; otherwise it restores board, history, index and players; consulted strategies get every count back; skipped ones end one lower for the move's row and symbol |
| GameProperties.UndoAfterMakeMoveOutcome | src/models/Game.java:166-168 | undo right after a move dereferences null exactly when a strategy not consulted for the move has no entry for it |
| GameProperties.UndoAfterMakeMoveRestoresGame | src/models/Game.java:157-176 | a successful undo right after a move restores board, history, turn index and players, with state IN_PROGRESS and no winner |
| GameProperties.UndoAfterMakeMoveCounts | src/models/Game.java:182-186 | a successful undo right after a move gives the consulted strategies their counts back and leaves the skipped ones one lower |
| GameProperties.MakeMoveKeepsSync | src/models/Game.java:137-143 | if all strategies' counts agree with the board, a move keeps the consulted ones in agreement and leaves the skipped ones one short for the move's row and symbol while agreeing on every other (row, symbol); without a win all stay in agreement |
| GameProperties.UndoKeepsSync | src/models/Game.java:157-168 | if all strategies' counts agree with the board, undo of the last move succeeds and keeps them in agreement |
| GameProperties.RowCompletionWins | src/models/Game.java:137-139 | with the first strategy in agreement with the board, it reports a win iff the move completes its row in the mover's symbol, and then the game is GAME_WON with the mover as winner |
| GameProperties.UndoOfWinDesyncsSkippedStrategies | src/models/Game.java:182-186 | undoing a winning move on an in-agreement game of dimension ≥ 2 succeeds and restores the board; the strategies that checked the move agree with it again, but every strategy the win skipped then disagrees with it in exactly one entry, one below the board for the move's row and symbol |
| GameProperties.DrawIsFinal | src/models/Game.java:107-142 | a DRAW game has no winner, dimension² moves and no EMPTY cell left, so validation rejects every attempt and a move leaves the game unchanged |
| GameProperties.BotMoveIsAccepted | src/models/Game.java:97-114 | a bot's proposed move is the current player's move on an EMPTY in-bounds cell, so validation accepts it; a move without a cell happens only on a full board |
| GameProperties.BuiltGameInSync | src/strategies/RowWinningStrategy.java:15-17 | a game built with freshly constructed row strategies starts with all of them in agreement with its empty board |
| Scenario.RowZeroWinThenUndo | src/models/Game.java:137-176 | on 3×3 with X and O and any number k ≥ 1 of row strategies, moves (0,0) X, (1,1) O, (0,1) X, (1,2) O, (0,2) X give GAME_WON with winner X after five moves; undo then succeeds with IN_PROGRESS, no winner, (0,2) EMPTY and X to move, the first strategy agrees with the board and, when k ≥ 2, every other strategy disagrees with it |

## Left out

- Console output is not modelled: `displayBoard`, `Board.display`, `gameSummary` and the messages printed by `validateMove`, `undo` and `BotPlayer.makeMove`.
- The driver (`Client`) and `GameController` are not modelled. The controller only forwards calls to `Game`.
- `HumanPlayer.makeMove` reads the console. A human's move is modelled as the coordinates passed to `Games.MakeMove`.
- The retry loop in `Game.makeMove` is not modelled; `Games.MakeMove` is one attempt. The loop has no bound and depends on an external move source.
- `MediumBotPlayingStrategy` is not modelled. It uses `java.util.Random`, its loop never ends on a full board, and the factory never creates it.
- The setters the engine never calls are not modelled: `setBoard`, `setPlayers`, `setNextPlayerIndex`, `setMoves` and `setWinningStrategies` on `Game`, and `setGrid` and `setDimension` on `Board`. They can break the invariants. The setters the engine does call are modelled through their effect: `setGameState` and `setWinner` inside `makeMove` and `undo`, and `move.setCell` inside `validateMove`.
- Symbol-uniqueness and bot-count checks are not modelled: the builder has them only as comments.
- `ColumnWinningStrategy` is not part of this model; a strategy is the row strategy. A game may still list several strategies.
- Strategies are modelled as values, so every listed strategy is a distinct object. In the source, a list that names one strategy object twice shares that object's counts. `checkWinner` and `undo` then update the shared map once per listing: on a 3×3 board with the list `[s, s]`, X wins with two marks in a row. Such aliasing is not modelled.
- The source files of `Cell`, `Move`, `Player`, `CellState`, `GameState`, `PlayerType`, `BotPlayingDifficulty` and `WinningStrategy` are not part of this model. Each is represented by a minimal datatype: `Cell`, `Move` and `CellState` in board.dfy; `Player`, `PlayerType` and `Difficulty` in players.dfy; `GameState` in game.dfy; `WinningStrategy` in row_winning.dfy. A player's type is derived from its variant (`Player.Type`), since each subclass fixes it. Difficulty levels other than the three the factory names are represented by `OtherLevel`.
- A null difficulty (a `NullPointerException` in the factory) and null player or move lists are not modelled.
- A `Move` with a null cell reaching `validateMove` is not modelled. It is a null dereference there. `BotPlayers.MakeMove` stops at `NoEmptyCell`.
- When undo throws midway, the model returns a failure and no game. The source has already removed the move, cleared the cell and rolled back the earlier strategies at that point. The program then ends.
- The source nests two hash maps (row → symbol → count). The model uses one map keyed by `(row, symbol)`. The model therefore does not tell "row present, symbol absent" from "row absent". `handleUndo` dereferences null in both cases.
- `moves.remove(lastMove)` removes the first element equal to the last move. With reference equality that is the last element, and the model removes the last element.
- Java `int` overflow is not modelled: counts, indices and `dimension * dimension` are unbounded integers. Values stay small on any playable board.

=== FILE: board.dfy ===
/** The N×N board, its cells and the moves placed on it. */
module Boards {
  import opened Wrappers
  import opened Players

  datatype CellState = Empty | Filled

  /** A board position: its coordinates, occupancy and owning player. */
  datatype Cell = Cell(row: int, col: int, state: CellState, owner: Option<Player>)

  /** A move: the target coordinates and the player who makes it. */
  datatype Move = Move(row: int, col: int, player: Player)

  datatype Board = Board(dimension: int, grid: seq<seq<Cell>>)

  /** A cell as the Cell constructor creates it: EMPTY and without owner. */
  function FreshCell(row: int, col: int): Cell {
    Cell(row, col, Empty, None)
  }

  /** Cell invariant at grid position (i, j): it knows its own coordinates, and it
      has an owner exactly when it is FILLED. */
  predicate CellAt(c: Cell, i: int, j: int) {
    c.row == i && c.col == j && (c.state == Filled <==> c.owner.Some?)
  }

  /** The shape the constructor gives the board, kept by every operation. */
  predicate WellFormed(b: Board) {
    && b.dimension >= 0
    && |b.grid| == b.dimension
    && (forall i :: 0 <= i < |b.grid| ==> |b.grid[i]| == b.dimension)
    && (forall i, j :: 0 <= i < |b.grid| && 0 <= j < |b.grid[i]| ==> CellAt(b.grid[i][j], i, j))
  }

  predicate InBounds(b: Board, row: int, col: int) {
    0 <= row < b.dimension && 0 <= col < b.dimension
  }

  /** The board constructor: `dimension` rows of `dimension` fresh cells, where the
      cell at grid position (i, j) carries row i and column j. A non-positive
      dimension gives an empty grid, as the constructor's loops then never run. */
  function NewBoard(dimension: int): (b: Board)
    ensures b.dimension == dimension
    ensures |b.grid| == (if dimension > 0 then dimension else 0)
    ensures forall i :: 0 <= i < |b.grid| ==> |b.grid[i]| == |b.grid|
    ensures forall i, j :: 0 <= i < |b.grid| && 0 <= j < |b.grid[i]| ==>
              b.grid[i][j].row == i && b.grid[i][j].col == j && b.grid[i][j].state == Empty
    ensures dimension >= 0 ==> WellFormed(b)
  {
    var n := if dimension > 0 then dimension else 0;
    Board(dimension, seq(n, i => seq(n, j => FreshCell(i, j))))
  }

  /** Replaces the cell at (row, col) with `c`, leaving every other cell alone. */
  function SetCell(b: Board, row: int, col: int, c: Cell): (r: Board)
    requires WellFormed(b) && InBounds(b, row, col) && CellAt(c, row, col)
    ensures WellFormed(r) && r.dimension == b.dimension
    ensures r.grid[row][col] == c
    ensures forall i, j :: InBounds(b, i, j) && (i != row || j != col) ==> r.grid[i][j] == b.grid[i][j]
    ensures forall i :: 0 <= i < r.dimension && i != row ==> r.grid[i] == b.grid[i]
    ensures r.grid[row] == b.grid[row][col := c]
  {
    Board(b.dimension, b.grid[row := b.grid[row][col := c]])
  }

  /** Marks (row, col) FILLED and owned by `p`, as a committed move does. */
  function Occupy(b: Board, row: int, col: int, p: Player): (r: Board)
    requires WellFormed(b) && InBounds(b, row, col)
  {
    SetCell(b, row, col, Cell(row, col, Filled, Some(p)))
  }

  /** Marks (row, col) EMPTY with no owner, as undo does. */
  function Clear(b: Board, row: int, col: int): (r: Board)
    requires WellFormed(b) && InBounds(b, row, col)
  {
    SetCell(b, row, col, FreshCell(row, col))
  }

  /** Clearing a cell right after occupying an EMPTY one gives back the same board. */
  lemma ClearAfterOccupy(b: Board, row: int, col: int, p: Player)
    requires WellFormed(b) && InBounds(b, row, col) && b.grid[row][col].state == Empty
    ensures Clear(Occupy(b, row, col, p), row, col) == b
  {
    assert CellAt(b.grid[row][col], row, col);
    var b' := Clear(Occupy(b, row, col, p), row, col);
    assert b'.grid[row] == b.grid[row];
    assert b'.grid == b.grid;
  }

  /** The cell bears symbol `s`: it is owned by a player whose symbol is `s`. */
  predicate Bears(c: Cell, s: char) {
    c.owner.Some? && c.owner.value.symbol == s
  }

  /** The number of cells of `row` that bear symbol `s`. */
  function SymbolCount(row: seq<Cell>, s: char): nat
  {
    if |row| == 0 then 0
    else (if Bears(row[0], s) then 1 else 0) + SymbolCount(row[1..], s)
  }

  /** A row is counted full for `s` exactly when every one of its cells bears `s`. */
  lemma {:induction false} SymbolCountFull(row: seq<Cell>, s: char)
    ensures SymbolCount(row, s) <= |row|
    ensures SymbolCount(row, s) == |row| <==> forall j :: 0 <= j < |row| ==> Bears(row[j], s)
  {
    if |row| > 0 {
      SymbolCountFull(row[1..], s);
      if SymbolCount(row, s) == |row| {
        forall j | 0 <= j < |row| ensures Bears(row[j], s) {
          if j > 0 {
            assert row[j] == row[1..][j - 1];
          }
        }
      }
      if forall j :: 0 <= j < |row| ==> Bears(row[j], s) {
        forall j | 0 <= j < |row| - 1 ensures Bears(row[1..][j], s) {
          assert row[1..][j] == row[j + 1];
        }
      }
    }
  }

  /** A row none of whose cells has an owner counts no symbol. */
  lemma {:induction false} SymbolCountUnowned(row: seq<Cell>, s: char)
    requires forall j :: 0 <= j < |row| ==> row[j].owner.None?
    ensures SymbolCount(row, s) == 0
  {
    if |row| > 0 {
      assert forall j :: 0 <= j < |row| - 1 ==> row[1..][j] == row[j + 1];
      SymbolCountUnowned(row[1..], s);
    }
  }

  /** Replacing one cell changes the count by what the old cell took away and the new
      cell brings. */
  lemma {:induction false} SymbolCountUpdate(row: seq<Cell>, j: int, c: Cell, s: char)
    requires 0 <= j < |row|
    ensures SymbolCount(row[j := c], s) + (if Bears(row[j], s) then 1 else 0)
            == SymbolCount(row, s) + (if Bears(c, s) then 1 else 0)
  {
    if j > 0 {
      assert row[j := c][1..] == row[1..][j - 1 := c];
      SymbolCountUpdate(row[1..], j - 1, c, s);
    } else {
      assert row[j := c][1..] == row[1..];
    }
  }

  /** The number of FILLED cells of a row. */
  function FilledInRow(row: seq<Cell>): nat
  {
    if |row| == 0 then 0
    else (if row[0].state == Filled then 1 else 0) + FilledInRow(row[1..])
  }

  /** The number of FILLED cells of a grid. */
  function FilledCount(grid: seq<seq<Cell>>): nat
  {
    if |grid| == 0 then 0 else FilledInRow(grid[0]) + FilledCount(grid[1..])
  }

  /** A row holds at most one FILLED cell per position, and reaches that bound exactly
      when every cell is FILLED. */
  lemma {:induction false} FilledInRowFull(row: seq<Cell>)
    ensures FilledInRow(row) <= |row|
    ensures FilledInRow(row) == |row| <==> forall j :: 0 <= j < |row| ==> row[j].state == Filled
  {
    if |row| > 0 {
      FilledInRowFull(row[1..]);
      if FilledInRow(row) == |row| {
        forall j | 0 <= j < |row| ensures row[j].state == Filled {
          if j > 0 {
            assert row[j] == row[1..][j - 1];
          }
        }
      }
      if forall j :: 0 <= j < |row| ==> row[j].state == Filled {
        forall j | 0 <= j < |row| - 1 ensures row[1..][j].state == Filled {
          assert row[1..][j] == row[j + 1];
        }
      }
    }
  }

  /** A grid of rows of length `d` holds at most |grid| * d FILLED cells, and reaching
      that bound means every cell is FILLED. */
  lemma {:induction false} FilledCountFull(grid: seq<seq<Cell>>, d: nat)
    requires forall i :: 0 <= i < |grid| ==> |grid[i]| == d
    ensures FilledCount(grid) <= |grid| * d
    ensures FilledCount(grid) == |grid| * d ==>
              forall i, j :: 0 <= i < |grid| && 0 <= j < d ==> grid[i][j].state == Filled
  {
    if |grid| > 0 {
      assert forall i :: 0 <= i < |grid| - 1 ==> grid[1..][i] == grid[i + 1];
      FilledInRowFull(grid[0]);
      FilledCountFull(grid[1..], d);
      assert |grid| * d == d + (|grid| - 1) * d;
      if FilledCount(grid) == |grid| * d {
        forall i, j | 0 <= i < |grid| && 0 <= j < d ensures grid[i][j].state == Filled {
          if i > 0 {
            assert grid[i] == grid[1..][i - 1];
          }
        }
      }
    }
  }

  /** A board whose FILLED cells number dimension² has no EMPTY cell. */
  lemma BoardFull(b: Board)
    requires WellFormed(b) && FilledCount(b.grid) == b.dimension * b.dimension
    ensures forall i, j :: InBounds(b, i, j) ==> b.grid[i][j].state == Filled
  {
    FilledCountFull(b.grid, b.dimension);
  }

  /** A board never holds more than dimension² FILLED cells. */
  lemma FilledAtMostCells(b: Board)
    requires WellFormed(b)
    ensures FilledCount(b.grid) <= b.dimension * b.dimension
  {
    FilledCountFull(b.grid, b.dimension);
  }

  /** Rows and grids without a FILLED cell count none. */
  lemma {:induction false} FilledInRowNone(row: seq<Cell>)
    requires forall j :: 0 <= j < |row| ==> row[j].state == Empty
    ensures FilledInRow(row) == 0
  {
    if |row| > 0 {
      assert forall j :: 0 <= j < |row| - 1 ==> row[1..][j] == row[j + 1];
      FilledInRowNone(row[1..]);
    }
  }

  lemma {:induction false} FilledCountNone(grid: seq<seq<Cell>>)
    requires forall i, j :: 0 <= i < |grid| && 0 <= j < |grid[i]| ==> grid[i][j].state == Empty
    ensures FilledCount(grid) == 0
  {
    if |grid| > 0 {
      FilledInRowNone(grid[0]);
      assert forall i :: 0 <= i < |grid| - 1 ==> grid[1..][i] == grid[i + 1];
      FilledCountNone(grid[1..]);
    }
  }

  /** A freshly constructed board has no FILLED cell. */
  lemma NewBoardUnfilled(dimension: int)
    ensures FilledCount(NewBoard(dimension).grid) == 0
  {
    FilledCountNone(NewBoard(dimension).grid);
  }

  /** Replacing one cell of a row changes its FILLED count by what the old cell took
      away and the new cell brings. */
  lemma {:induction false} FilledInRowUpdate(row: seq<Cell>, j: int, c: Cell)
    requires 0 <= j < |row|
    ensures FilledInRow(row[j := c]) + (if row[j].state == Filled then 1 else 0)
            == FilledInRow(row) + (if c.state == Filled then 1 else 0)
  {
    if j > 0 {
      assert row[j := c][1..] == row[1..][j - 1 := c];
      FilledInRowUpdate(row[1..], j - 1, c);
    } else {
      assert row[j := c][1..] == row[1..];
    }
  }

  /** Replacing one row of a grid changes its FILLED count by the difference of the rows. */
  lemma {:induction false} FilledCountUpdate(grid: seq<seq<Cell>>, i: int, r: seq<Cell>)
    requires 0 <= i < |grid|
    ensures FilledCount(grid[i := r]) + FilledInRow(grid[i]) == FilledCount(grid) + FilledInRow(r)
  {
    if i > 0 {
      assert grid[i := r][1..] == grid[1..][i - 1 := r];
      FilledCountUpdate(grid[1..], i - 1, r);
    } else {
      assert grid[i := r][1..] == grid[1..];
    }
  }

  /** Occupying an EMPTY cell adds one FILLED cell; clearing a FILLED one removes one. */
  lemma OccupyClearCounts(b: Board, row: int, col: int, p: Player)
    requires WellFormed(b) && InBounds(b, row, col)
    ensures b.grid[row][col].state == Empty ==>
              FilledCount(Occupy(b, row, col, p).grid) == FilledCount(b.grid) + 1
    ensures b.grid[row][col].state == Filled ==>
              FilledCount(Clear(b, row, col).grid) + 1 == FilledCount(b.grid)
  {
    var filled := Cell(row, col, Filled, Some(p));
    FilledInRowUpdate(b.grid[row], col, filled);
    FilledCountUpdate(b.grid, row, b.grid[row][col := filled]);
    FilledInRowUpdate(b.grid[row], col, FreshCell(row, col));
    FilledCountUpdate(b.grid, row, b.grid[row][col := FreshCell(row, col)]);
  }
}

=== FILE: bot_player.dfy ===
/** Bot players: construction binds a move-selection policy from the difficulty, and
    a bot's move wraps the cell that policy picks. */
module BotPlayers {
  import opened Wrappers
  import opened Players
  import opened Boards
  import BotPlayingStrategyFactory
  import EasyBotPlayingStrategy

  /** What asking a bot for a move yields: a move on the chosen cell; a move whose cell
      is null, because the policy found no EMPTY cell; or a null dereference, because
      the factory bound no policy to the bot. */
  datatype BotOutcome =
    | Proposed(move: Move)
    | NoEmptyCell(player: Player)
    | NoStrategy

  /** The bot constructor: type BOT, policy resolved once by the factory. */
  function NewBotPlayer(id: string, name: string, symbol: char, d: Difficulty): (p: Player)
    ensures p.BotPlayer? && p.Type() == Bot
    ensures p.id == id && p.name == name && p.symbol == symbol && p.difficulty == d
    ensures BotPlayingStrategyFactory.IsListed(d) <==> p.strategy == Some(EasyBotStrategy)
  {
    BotPlayer(id, name, symbol, d, BotPlayingStrategyFactory.GetBotPlayingStrategy(d))
  }

  /** The bot's move: the bound policy's cell wrapped with the bot itself as player. */
  function MakeMove(p: Player, b: Board): (r: BotOutcome)
    requires p.BotPlayer?
    ensures r.Proposed? ==> r.move.player == p
    ensures r.NoEmptyCell? ==> r.player == p
    ensures r.NoStrategy? <==> p.strategy.None?
    ensures p.strategy.Some? ==> (r.Proposed? <==> EasyBotPlayingStrategy.MakeMove(b).Some?)
    ensures r.Proposed? ==> r.move.row == EasyBotPlayingStrategy.MakeMove(b).value.row
                            && r.move.col == EasyBotPlayingStrategy.MakeMove(b).value.col
    ensures p.strategy.Some? ==> (r.NoEmptyCell? <==> EasyBotPlayingStrategy.IsFull(b.grid))
    ensures r.Proposed? ==> exists i, j :: EasyBotPlayingStrategy.IsFirstEmpty(b.grid, i, j)
                                            && b.grid[i][j].row == r.move.row
                                            && b.grid[i][j].col == r.move.col
  {
    match p.strategy
    case None => NoStrategy
    case Some(EasyBotStrategy) =>
      match EasyBotPlayingStrategy.MakeMove(b)
      case None => NoEmptyCell(p)
      case Some(c) => Proposed(Move(c.row, c.col, p))
  }

  /** Whatever difficulty it was built with, a bot whose level the factory lists plays
      the first EMPTY cell of a well-formed board, and on a full board offers a move
      with no cell. MEDIUM and HARD therefore play exactly like EASY. */
  lemma ListedBotPlaysFirstEmptyCell(id: string, name: string, symbol: char, d: Difficulty, b: Board)
    requires BotPlayingStrategyFactory.IsListed(d)
    requires WellFormed(b)
    ensures var r := MakeMove(NewBotPlayer(id, name, symbol, d), b);
            && (r.NoEmptyCell? <==> EasyBotPlayingStrategy.IsFull(b.grid))
            && (r.Proposed? ==> InBounds(b, r.move.row, r.move.col)
                                && EasyBotPlayingStrategy.IsFirstEmpty(b.grid, r.move.row, r.move.col))
  {
    EasyBotPlayingStrategy.MoveIsOnBoard(b);
  }
}

=== FILE: easy_bot.dfy ===
/** The Easy bot policy: play the first EMPTY cell met when scanning the grid row by
    row, left to right. The scan walks the grid it is given, whatever its shape. */
module EasyBotPlayingStrategy {
  import opened Wrappers
  import opened Boards

  /** (i, j) is the first EMPTY cell of `grid` in row-major order. */
  predicate IsFirstEmpty(grid: seq<seq<Cell>>, i: int, j: int) {
    && 0 <= i < |grid| && 0 <= j < |grid[i]|
    && grid[i][j].state == Empty
    && (forall i', j' :: 0 <= i' < i && 0 <= j' < |grid[i']| ==> grid[i'][j'].state != Empty)
    && (forall j' :: 0 <= j' < j ==> grid[i][j'].state != Empty)
  }

  /** No cell of `grid` is EMPTY. */
  predicate IsFull(grid: seq<seq<Cell>>) {
    forall i, j :: 0 <= i < |grid| && 0 <= j < |grid[i]| ==> grid[i][j].state != Empty
  }

  /** The inner loop: the first EMPTY cell of `row` at or after column `j`. */
  function FirstEmptyInRow(row: seq<Cell>, j: nat): (r: Option<nat>)
    requires j <= |row|
    ensures r.Some? ==> j <= r.value < |row| && row[r.value].state == Empty
    ensures r.Some? ==> forall k :: j <= k < r.value ==> row[k].state != Empty
    ensures r.None? ==> forall k :: j <= k < |row| ==> row[k].state != Empty
    decreases |row| - j
  {
    if j == |row| then None
    else if row[j].state == Empty then Some(j)
    else FirstEmptyInRow(row, j + 1)
  }

  /** The outer loop: the first EMPTY cell in row-major order among rows `i` onwards. */
  function FirstEmptyFrom(grid: seq<seq<Cell>>, i: nat): (r: Option<(nat, nat)>)
    requires i <= |grid|
    ensures r.Some? ==> i <= r.value.0 < |grid| && r.value.1 < |grid[r.value.0]|
    ensures r.Some? ==> grid[r.value.0][r.value.1].state == Empty
    ensures r.Some? ==> forall i', j' :: i <= i' < r.value.0 && 0 <= j' < |grid[i']| ==>
                          grid[i'][j'].state != Empty
    ensures r.Some? ==> forall j' :: 0 <= j' < r.value.1 ==> grid[r.value.0][j'].state != Empty
    ensures r.None? ==> forall i', j' :: i <= i' < |grid| && 0 <= j' < |grid[i']| ==>
                          grid[i'][j'].state != Empty
    decreases |grid| - i
  {
    if i == |grid| then None
    else match FirstEmptyInRow(grid[i], 0)
      case Some(j) => Some((i, j))
      case None => FirstEmptyFrom(grid, i + 1)
  }

  /** The strategy's move: the first EMPTY cell in row-major order, or None (null)
      when every cell is filled. The board itself is left untouched. */
  function MakeMove(b: Board): (r: Option<Cell>)
    ensures r.None? <==> IsFull(b.grid)
    ensures r.Some? ==> r.value.state == Empty
    ensures r.Some? ==> exists i, j :: IsFirstEmpty(b.grid, i, j) && b.grid[i][j] == r.value
  {
    match FirstEmptyFrom(b.grid, 0)
    case None => None
    case Some((i, j)) =>
      assert IsFirstEmpty(b.grid, i, j);
      Some(b.grid[i][j])
  }

  /** On a well-formed board the cell played lies on the board and is found at its
      own coordinates, so it is a grid element and not a copy elsewhere. */
  lemma MoveIsOnBoard(b: Board)
    requires WellFormed(b)
    ensures var r := MakeMove(b);
            r.Some? ==> InBounds(b, r.value.row, r.value.col)
                        && b.grid[r.value.row][r.value.col] == r.value
                        && IsFirstEmpty(b.grid, r.value.row, r.value.col)
  {
    var r := MakeMove(b);
    if r.Some? {
      var i, j :| IsFirstEmpty(b.grid, i, j) && b.grid[i][j] == r.value;
      assert CellAt(b.grid[i][j], i, j);
    }
  }
}

=== FILE: factory.dfy ===
/** Resolution of a bot difficulty to the move-selection policy the bot will use. */
module BotPlayingStrategyFactory {
  import opened Wrappers
  import opened Players

  /** True of the three difficulty levels the factory has a branch for. */
  predicate IsListed(d: Difficulty) {
    d.Easy? || d.Medium? || d.Hard?
  }

  /** The factory: every listed level, MEDIUM and HARD included, yields the Easy
      policy; any other level yields no strategy (null). That the policy is always the
      Easy one is also fixed by `BotStrategy` having that single variant, since the
      Medium policy is never created; the second ensures records it for the reader. */
  function GetBotPlayingStrategy(d: Difficulty): (r: Option<BotStrategy>)
    ensures r.Some? <==> IsListed(d)
    ensures r.Some? ==> r.value == EasyBotStrategy
  {
    if d == Easy then Some(EasyBotStrategy)
    else if d == Medium then Some(EasyBotStrategy)
    else if d == Hard then Some(EasyBotStrategy)
    else None
  }
}

=== FILE: game.dfy ===
/** The game: the board, the players in turn order, the move history, the lifecycle
    state and the winning strategies, with the move and undo transitions. */
module Games {
  import opened Wrappers
  import opened Players
  import opened Boards
  import RowWinning
  import DimensionAndPlayerCount
  import TurnArith

  datatype GameState = InProgress | GameWon | Draw

  datatype Game = Game(
    board: Board,
    players: seq<Player>,
    nextPlayerIndex: int,
    winner: Option<Player>,
    moves: seq<Move>,
    state: GameState,
    winningStrategies: seq<RowWinning.WinningStrategy>)

  /** Undo fails only by dereferencing null, when a strategy holds no entry for the
      undone move. */
  datatype UndoError = NullDereference

  /** Every move of the history is on the board, its cell FILLED and owned by the
      move's player, and no two moves share a cell. */
  ghost predicate HistoryOnBoard(b: Board, moves: seq<Move>)
    requires WellFormed(b)
  {
    && (forall k :: 0 <= k < |moves| ==>
          InBounds(b, moves[k].row, moves[k].col)
          && b.grid[moves[k].row][moves[k].col] == Cell(moves[k].row, moves[k].col, Filled, Some(moves[k].player)))
    && (forall k, l :: 0 <= k < l < |moves| ==> moves[k].row != moves[l].row || moves[k].col != moves[l].col)
  }

  /** Turns go round-robin from the first player: the index names the player due to
      move, and the k-th move of the history was made by player k mod n. */
  ghost predicate TurnOrder(g: Game) {
    && |g.players| > 0
    && g.nextPlayerIndex == |g.moves| % |g.players|
    && (forall k :: 0 <= k < |g.moves| ==> g.moves[k].player == g.players[k % |g.players|])
  }

  /** The invariant every game reached from the builder keeps. The board holds one
      FILLED cell per move of the history, so a DRAW, which needs dimension² moves,
      leaves no EMPTY cell. */
  ghost predicate Valid(g: Game) {
    && WellFormed(g.board)
    && TurnOrder(g)
    && (g.state == GameWon <==> g.winner.Some?)
    && HistoryOnBoard(g.board, g.moves)
    && FilledCount(g.board.grid) == |g.moves|
    && (g.state == Draw ==> |g.moves| == g.board.dimension * g.board.dimension)
  }

  /** The Game constructor: a fresh board, the given players and strategies, state
      IN_PROGRESS, empty history, index 0 and no winner. */
  function NewGame(dimension: int, players: seq<Player>, ws: seq<RowWinning.WinningStrategy>): (g: Game)
    ensures g.board == NewBoard(dimension) && g.players == players && g.winningStrategies == ws
    ensures g.state == InProgress && g.moves == [] && g.nextPlayerIndex == 0 && g.winner.None?
    ensures dimension >= 0 && |players| > 0 ==> Valid(g)
  {
    NewBoardUnfilled(dimension);
    Game(NewBoard(dimension), players, 0, None, [], InProgress, ws)
  }

  /** The builder: validates the configuration and constructs the game only if the
      validation throws nothing. */
  function Build(dimension: int, players: seq<Player>, ws: seq<RowWinning.WinningStrategy>)
    : (r: Result<Game, DimensionAndPlayerCount.ConfigError>)
    ensures r.Failure? <==> !(1 < |players| < dimension)
    ensures r.Failure? ==> (r.error == DimensionAndPlayerCount.InvalidPlayerCount <==> |players| <= 1)
    ensures r.Success? ==> r.value == NewGame(dimension, players, ws) && Valid(r.value)
    ensures r.Success? ==> r.value.board.dimension >= 3 && 2 <= |r.value.players| < r.value.board.dimension
  {
    match DimensionAndPlayerCount.Validate(dimension, |players|)
    case Some(e) => Failure(e)
    case None => Success(NewGame(dimension, players, ws))
  }

  /** Move validation: the move must lie inside the board and target an EMPTY cell.
      An accepted move's coordinates are those of the board cell it resolves to. */
  function ValidateMove(b: Board, m: Move): (ok: bool)
    requires WellFormed(b)
    ensures ok <==> InBounds(b, m.row, m.col) && b.grid[m.row][m.col].state == Empty
    ensures ok ==> b.grid[m.row][m.col].row == m.row && b.grid[m.row][m.col].col == m.col
                   && b.grid[m.row][m.col].owner.None?
  {
    if m.row < 0 || m.row > b.dimension - 1 || m.col < 0 || m.col > b.dimension - 1 then false
    else
      assert CellAt(b.grid[m.row][m.col], m.row, m.col);
      b.grid[m.row][m.col].state == Empty
  }

  /** The verdict of consulting the strategies on one move: whether one reported a
      win, the strategies afterwards, and how many were consulted. */
  datatype Verdict = Verdict(won: bool, strategies: seq<RowWinning.WinningStrategy>, consulted: nat)

  /** Consults the strategies in list order and stops at the first that reports a
      win: exactly the first `consulted` strategies have recorded the move, and the
      rest are untouched. */
  function CheckWinner(ws: seq<RowWinning.WinningStrategy>, b: Board, m: Move): (v: Verdict)
    ensures |v.strategies| == |ws| && v.consulted <= |ws|
    ensures |ws| > 0 ==> v.consulted >= 1
    ensures v.won <==> v.consulted > 0 && RowWinning.CheckWinner(ws[v.consulted - 1], b, m).won
    ensures !v.won ==> v.consulted == |ws|
    ensures forall i :: 0 <= i < v.consulted - 1 ==> !RowWinning.CheckWinner(ws[i], b, m).won
    ensures forall i :: 0 <= i < v.consulted ==> v.strategies[i] == RowWinning.CheckWinner(ws[i], b, m).strategy
    ensures forall i :: v.consulted <= i < |ws| ==> v.strategies[i] == ws[i]
  {
    if |ws| == 0 then Verdict(false, [], 0)
    else
      var c := RowWinning.CheckWinner(ws[0], b, m);
      if c.won then Verdict(true, [c.strategy] + ws[1..], 1)
      else
        var rest := CheckWinner(ws[1..], b, m);
        Verdict(rest.won, [c.strategy] + rest.strategies, rest.consulted + 1)
  }

  /** One attempt of the current player to play (row, col). An invalid attempt
      leaves the game unchanged; a valid one fills the cell for the current player,
      records the move, settles win or draw, and passes the turn on. */
  function MakeMove(g: Game, row: int, col: int): (r: Game)
    requires Valid(g)
    ensures var m := Move(row, col, g.players[g.nextPlayerIndex]);
            !ValidateMove(g.board, m) ==> r == g
    ensures r.players == g.players && r.board.dimension == g.board.dimension
    ensures WellFormed(r.board)
    ensures |r.winningStrategies| == |g.winningStrategies|
    ensures var mover := g.players[g.nextPlayerIndex];
            var m := Move(row, col, mover);
            ValidateMove(g.board, m) ==>
              && r.board.grid[row][col] == Cell(row, col, Filled, Some(mover))
              && (forall i, j :: InBounds(g.board, i, j) && (i != row || j != col) ==>
                    r.board.grid[i][j] == g.board.grid[i][j])
              && r.moves == g.moves + [m]
              && r.nextPlayerIndex == (g.nextPlayerIndex + 1) % |g.players|
              && var v := CheckWinner(g.winningStrategies, r.board, m);
                 && r.winningStrategies == v.strategies
                 && (v.won ==> r.state == GameWon && r.winner == Some(mover))
                 && (!v.won && |r.moves| == g.board.dimension * g.board.dimension ==>
                       r.state == Draw && r.winner.None?)
                 && (!v.won && |r.moves| != g.board.dimension * g.board.dimension ==>
                       r.state == g.state && r.winner == g.winner)
    ensures Valid(r)
  {
    var mover := g.players[g.nextPlayerIndex];
    var m := Move(row, col, mover);
    if !ValidateMove(g.board, m) then g
    else
      var b := Occupy(g.board, row, col, mover);
      var moves := g.moves + [m];
      var v := CheckWinner(g.winningStrategies, b, m);
      var state := if v.won then GameWon else if |moves| == b.dimension * b.dimension then Draw else g.state;
      var winner := if v.won then Some(mover) else if |moves| == b.dimension * b.dimension then None else g.winner;
      var r := Game(b, g.players, (g.nextPlayerIndex + 1) % |g.players|, winner, moves, state, v.strategies);
      CommitKeepsValid(g, m, r);
      r
  }

  /** A committed move keeps the game invariant: the new cell was EMPTY, so it is
      distinct from every cell of the history, and the mover is the player due. */
  lemma CommitKeepsValid(g: Game, m: Move, r: Game)
    requires Valid(g) && ValidateMove(g.board, m) && m.player == g.players[g.nextPlayerIndex]
    requires r.board == Occupy(g.board, m.row, m.col, m.player) && r.players == g.players
    requires r.moves == g.moves + [m] && r.nextPlayerIndex == (g.nextPlayerIndex + 1) % |g.players|
    requires r.state == GameWon <==> r.winner.Some?
    requires r.state == Draw ==> g.state == Draw || |r.moves| == g.board.dimension * g.board.dimension
    ensures Valid(r)
  {
    var n := |g.players|;
    TurnArith.StepForward(|g.moves|, n);
    OccupyClearCounts(g.board, m.row, m.col, m.player);
    FilledAtMostCells(g.board);
    FilledAtMostCells(r.board);
    assert |g.moves| < g.board.dimension * g.board.dimension;
    forall k | 0 <= k < |g.moves|
      ensures g.moves[k].row != m.row || g.moves[k].col != m.col
    {
      assert g.board.grid[g.moves[k].row][g.moves[k].col].state == Filled;
    }
    assert HistoryOnBoard(r.board, r.moves);
  }

  /** Rolls every strategy back for the move, or reports the null dereference of the
      first strategy holding no entry for it. */
  function HandleUndoAll(ws: seq<RowWinning.WinningStrategy>, m: Move): (r: Option<seq<RowWinning.WinningStrategy>>)
    ensures r.Some? <==> forall i :: 0 <= i < |ws| ==> RowWinning.HandleUndo(ws[i], m).Some?
    ensures r.Some? ==> |r.value| == |ws|
    ensures r.Some? ==> forall i :: 0 <= i < |ws| ==> r.value[i] == RowWinning.HandleUndo(ws[i], m).value
  {
    if |ws| == 0 then Some([])
    else match RowWinning.HandleUndo(ws[0], m)
      case None => None
      case Some(w) =>
        match HandleUndoAll(ws[1..], m)
        case None => None
        case Some(rest) => Some([w] + rest)
  }

  /** Undo: with no history nothing changes; otherwise the last move is removed, its
      cell cleared, every strategy rolled back, the game put back IN_PROGRESS without
      winner, and the turn index stepped back. */
  function Undo(g: Game): (r: Result<Game, UndoError>)
    requires Valid(g)
    ensures |g.moves| == 0 ==> r == Success(g)
    ensures |g.moves| > 0 ==>
              var last := g.moves[|g.moves| - 1];
              (r.Failure? <==> exists i :: 0 <= i < |g.winningStrategies|
                                           && RowWinning.HandleUndo(g.winningStrategies[i], last).None?)
    ensures |g.moves| > 0 && r.Success? ==>
              var last := g.moves[|g.moves| - 1];
              var u := r.value;
              && WellFormed(u.board) && u.board.dimension == g.board.dimension
              && u.moves == g.moves[..|g.moves| - 1]
              && u.board.grid[last.row][last.col] == FreshCell(last.row, last.col)
              && (forall i, j :: InBounds(g.board, i, j) && (i != last.row || j != last.col) ==>
                    u.board.grid[i][j] == g.board.grid[i][j])
              && u.state == InProgress && u.winner.None?
              && u.nextPlayerIndex == (g.nextPlayerIndex - 1 + |g.players|) % |g.players|
              && |u.winningStrategies| == |g.winningStrategies|
              && (forall i :: 0 <= i < |g.winningStrategies| ==>
                    u.winningStrategies[i] == RowWinning.HandleUndo(g.winningStrategies[i], last).value)
    ensures r.Success? ==> Valid(r.value) && r.value.players == g.players
                           && r.value.board.dimension == g.board.dimension
  {
    if |g.moves| <= 0 then Success(g)
    else
      var last := g.moves[|g.moves| - 1];
      var b := Clear(g.board, last.row, last.col);
      match HandleUndoAll(g.winningStrategies, last)
      case None => Failure(NullDereference)
      case Some(ws) =>
        var n := |g.players|;
        var u := Game(b, g.players, (g.nextPlayerIndex - 1 + n) % n, None,
                      g.moves[..|g.moves| - 1], InProgress, ws);
        RemoveKeepsValid(g, u);
        Success(u)
  }

  /** Removing the last move keeps the game invariant: the remaining moves sit on
      other cells, which the clearing leaves FILLED, and the index steps back in turn. */
  lemma RemoveKeepsValid(g: Game, u: Game)
    requires Valid(g) && |g.moves| > 0
    requires var last := g.moves[|g.moves| - 1];
             u.board == Clear(g.board, last.row, last.col)
    requires u.players == g.players && u.moves == g.moves[..|g.moves| - 1]
    requires u.nextPlayerIndex == (g.nextPlayerIndex - 1 + |g.players|) % |g.players|
    requires u.state == InProgress && u.winner.None?
    ensures Valid(u)
  {
    TurnArith.StepBack(|g.moves|, |g.players|);
    var last := g.moves[|g.moves| - 1];
    OccupyClearCounts(g.board, last.row, last.col, last.player);
    forall k | 0 <= k < |u.moves|
      ensures u.moves[k].row != last.row || u.moves[k].col != last.col
    {
      assert u.moves[k] == g.moves[k];
    }
    assert HistoryOnBoard(u.board, u.moves);
  }

  /** The player who made the most recent move: the index has already moved past
      them, so it is stepped back by one. */
  function GetCurrentPlayer(g: Game): (p: Player)
    requires Valid(g)
    ensures p in g.players
    ensures |g.moves| > 0 ==> p == g.moves[|g.moves| - 1].player
    ensures |g.moves| == 0 ==> p == g.players[|g.players| - 1]
  {
    var n := |g.players|;
    var i := (g.nextPlayerIndex - 1 + n) % n;
    assert |g.moves| > 0 ==> g.players[i] == g.moves[|g.moves| - 1].player by {
      if |g.moves| > 0 {
        TurnArith.StepBack(|g.moves|, n);
      }
    }
    assert |g.moves| == 0 ==> i == n - 1 by {
      if |g.moves| == 0 {
        TurnArith.ModUnique(0, 0, 0, n);
        TurnArith.ModUnique(n - 1, 0, n - 1, n);
      }
    }
    g.players[i]
  }
}

=== FILE: game_properties.dfy ===
/** Properties of the game relating several transitions: the undo round trip, the
    agreement of the strategies' counts with the board, what a reported win means, and
    the drift of strategies skipped on a winning move. */
module GameProperties {
  import opened Wrappers
  import opened Players
  import opened Boards
  import opened Games
  import RowWinning
  import BotPlayers
  import EasyBotPlayingStrategy

  /** Every strategy's counts agree with the board. */
  ghost predicate AllInSync(g: Game)
    requires WellFormed(g.board)
  {
    forall i :: 0 <= i < |g.winningStrategies| ==> RowWinning.InSync(g.winningStrategies[i], g.board)
  }

  /** The move the current player makes by playing (row, col). */
  function MoveOf(g: Game, row: int, col: int): Move
    requires Valid(g)
  {
    Move(row, col, g.players[g.nextPlayerIndex])
  }

  /** Undo right after a committed move restores the board, the history and the turn
      index, and leaves the game IN_PROGRESS without winner. The strategies that
      checked the move get their counts back. Those the win short-circuited never
      counted it, yet are rolled back too: undo dereferences null unless each already
      holds an entry for the move, and when it does, its count ends one lower. */
  lemma UndoAfterMakeMove(g: Game, row: int, col: int)
    requires Valid(g)
    requires ValidateMove(g.board, MoveOf(g, row, col))
    ensures var m := MoveOf(g, row, col);
            var g1 := MakeMove(g, row, col);
            var v := CheckWinner(g.winningStrategies, g1.board, m);
            var u := Undo(g1);
            && (u.Success? <==> forall i :: v.consulted <= i < |g.winningStrategies| ==>
                                  (row, m.player.symbol) in g.winningStrategies[i].rowCounts)
            && (u.Success? ==>
                  && u.value.board == g.board
                  && u.value.moves == g.moves
                  && u.value.nextPlayerIndex == g.nextPlayerIndex
                  && u.value.players == g.players
                  && u.value.state == InProgress && u.value.winner.None?
                  && |u.value.winningStrategies| == |g.winningStrategies|
                  && (forall i :: 0 <= i < v.consulted ==>
                        RowWinning.SameCounts(u.value.winningStrategies[i], g.winningStrategies[i]))
                  && (forall i :: v.consulted <= i < |g.winningStrategies| ==>
                        RowWinning.Count(u.value.winningStrategies[i].rowCounts, row, m.player.symbol)
                        == RowWinning.Count(g.winningStrategies[i].rowCounts, row, m.player.symbol) - 1))
  {
    UndoAfterMakeMoveOutcome(g, row, col);
    UndoAfterMakeMoveRestoresGame(g, row, col);
    UndoAfterMakeMoveCounts(g, row, col);
  }

  /** The undone move is the committed one, and it is the only move removed. */
  lemma CommittedMoveIsLast(g: Game, row: int, col: int)
    requires Valid(g)
    requires ValidateMove(g.board, MoveOf(g, row, col))
    ensures var g1 := MakeMove(g, row, col);
            && |g1.moves| > 0
            && g1.moves[|g1.moves| - 1] == MoveOf(g, row, col)
            && g1.moves[..|g1.moves| - 1] == g.moves
  {
    var g1 := MakeMove(g, row, col);
    assert g1.moves == g.moves + [MoveOf(g, row, col)];
    assert g1.moves[..|g1.moves| - 1] == g.moves;
  }

  /** Part of the round trip: when undo right after a move dereferences null. */
  lemma UndoAfterMakeMoveOutcome(g: Game, row: int, col: int)
    requires Valid(g)
    requires ValidateMove(g.board, MoveOf(g, row, col))
    ensures var m := MoveOf(g, row, col);
            var g1 := MakeMove(g, row, col);
            var v := CheckWinner(g.winningStrategies, g1.board, m);
            Undo(g1).Success? <==> forall i :: v.consulted <= i < |g.winningStrategies| ==>
                                     (row, m.player.symbol) in g.winningStrategies[i].rowCounts
  {
    var m := MoveOf(g, row, col);
    var g1 := MakeMove(g, row, col);
    var v := CheckWinner(g.winningStrategies, g1.board, m);
    CommittedMoveIsLast(g, row, col);
    forall i | 0 <= i < v.consulted
      ensures RowWinning.HandleUndo(g1.winningStrategies[i], m).Some?
    {
      assert (row, m.player.symbol) in g1.winningStrategies[i].rowCounts;
    }
  }

  /** Part of the round trip: board, history and turn index come back. */
  lemma UndoAfterMakeMoveRestoresGame(g: Game, row: int, col: int)
    requires Valid(g)
    requires ValidateMove(g.board, MoveOf(g, row, col))
    ensures var g1 := MakeMove(g, row, col);
            var u := Undo(g1);
            u.Success? ==>
              && u.value.board == g.board
              && u.value.moves == g.moves
              && u.value.nextPlayerIndex == g.nextPlayerIndex
              && u.value.players == g.players
              && u.value.state == InProgress && u.value.winner.None?
  {
    var m := MoveOf(g, row, col);
    var g1 := MakeMove(g, row, col);
    CommittedMoveIsLast(g, row, col);
    var u := Undo(g1);
    if u.Success? {
      ClearAfterOccupy(g.board, row, col, m.player);
      assert g1.board == Occupy(g.board, row, col, m.player);
      TurnArith.ForwardThenBack(g.nextPlayerIndex, |g.players|);
    }
  }

  /** Part of the round trip: the consulted strategies get their counts back, the
      skipped ones end one lower for the move's row and symbol. */
  lemma UndoAfterMakeMoveCounts(g: Game, row: int, col: int)
    requires Valid(g)
    requires ValidateMove(g.board, MoveOf(g, row, col))
    ensures var m := MoveOf(g, row, col);
            var g1 := MakeMove(g, row, col);
            var v := CheckWinner(g.winningStrategies, g1.board, m);
            var u := Undo(g1);
            u.Success? ==>
              && |u.value.winningStrategies| == |g.winningStrategies|
              && (forall i :: 0 <= i < v.consulted ==>
                    RowWinning.SameCounts(u.value.winningStrategies[i], g.winningStrategies[i]))
              && (forall i :: v.consulted <= i < |g.winningStrategies| ==>
                    RowWinning.Count(u.value.winningStrategies[i].rowCounts, row, m.player.symbol)
                    == RowWinning.Count(g.winningStrategies[i].rowCounts, row, m.player.symbol) - 1)
  {
    var m := MoveOf(g, row, col);
    var g1 := MakeMove(g, row, col);
    var v := CheckWinner(g.winningStrategies, g1.board, m);
    var ws := g.winningStrategies;
    CommittedMoveIsLast(g, row, col);
    var u := Undo(g1);
    if u.Success? {
      forall i | 0 <= i < v.consulted
        ensures RowWinning.SameCounts(u.value.winningStrategies[i], ws[i])
      {
        RowWinning.CheckThenUndoRestoresCounts(ws[i], g1.board, m);
      }
    }
  }

  /** Committing a move keeps the counts of every strategy that checked it in
      agreement with the board. A strategy the win short-circuited is left one short
      for the move's row and symbol and agrees everywhere else, and without a win
      every strategy was consulted. */
  lemma MakeMoveKeepsSync(g: Game, row: int, col: int)
    requires Valid(g) && AllInSync(g)
    requires ValidateMove(g.board, MoveOf(g, row, col))
    ensures var m := MoveOf(g, row, col);
            var g1 := MakeMove(g, row, col);
            var v := CheckWinner(g.winningStrategies, g1.board, m);
            && (forall i :: 0 <= i < v.consulted ==> RowWinning.InSync(g1.winningStrategies[i], g1.board))
            && (forall i :: v.consulted <= i < |g.winningStrategies| ==>
                  RowWinning.Count(g1.winningStrategies[i].rowCounts, row, m.player.symbol)
                  == SymbolCount(g1.board.grid[row], m.player.symbol) - 1)
            && (forall i :: v.consulted <= i < |g.winningStrategies| ==>
                  RowWinning.InSyncExcept(g1.winningStrategies[i], g1.board, row, m.player.symbol))
            && (!v.won ==> AllInSync(g1))
  {
    var m := MoveOf(g, row, col);
    var g1 := MakeMove(g, row, col);
    var v := CheckWinner(g.winningStrategies, g1.board, m);
    var ws := g.winningStrategies;
    assert g1.board == Occupy(g.board, row, col, m.player);
    forall i | 0 <= i < v.consulted
      ensures RowWinning.InSync(g1.winningStrategies[i], g1.board)
    {
      RowWinning.CheckKeepsSync(ws[i], g.board, m);
    }
    var filled := Cell(row, col, Filled, Some(m.player));
    SymbolCountUpdate(g.board.grid[row], col, filled, m.player.symbol);
    assert CellAt(g.board.grid[row][col], row, col);
    forall i, t | v.consulted <= i < |ws| && t != m.player.symbol
      ensures RowWinning.Count(g1.winningStrategies[i].rowCounts, row, t) == SymbolCount(g1.board.grid[row], t)
    {
      SymbolCountUpdate(g.board.grid[row], col, filled, t);
      assert RowWinning.Count(ws[i].rowCounts, row, t) == SymbolCount(g.board.grid[row], t);
    }
  }

  /** Undoing the last move keeps every strategy's counts in agreement with the board,
      and never dereferences null: each counted mark guarantees its entry. */
  lemma UndoKeepsSync(g: Game)
    requires Valid(g) && AllInSync(g) && |g.moves| > 0
    ensures Undo(g).Success? && AllInSync(Undo(g).value)
  {
    var last := g.moves[|g.moves| - 1];
    var ws := g.winningStrategies;
    forall i | 0 <= i < |ws|
      ensures RowWinning.HandleUndo(ws[i], last).Some?
      ensures RowWinning.InSync(RowWinning.HandleUndo(ws[i], last).value, Clear(g.board, last.row, last.col))
    {
      RowWinning.UndoKeepsSync(ws[i], g.board, last);
    }
  }

  /** A drawn game has no winner, a history of dimension² moves and no EMPTY cell
      left, so every further attempt is rejected and the game stays as it is. */
  lemma DrawIsFinal(g: Game, row: int, col: int)
    requires Valid(g) && g.state == Draw
    ensures g.winner.None? && |g.moves| == g.board.dimension * g.board.dimension
    ensures forall i, j :: InBounds(g.board, i, j) ==> g.board.grid[i][j].state == Filled
    ensures !ValidateMove(g.board, MoveOf(g, row, col)) && MakeMove(g, row, col) == g
  {
    BoardFull(g.board);
  }

  /** With the first strategy in agreement with the board, it reports a win exactly
      when the move completes its row in the mover's symbol; and since the first
      strategy is always consulted, completing a row wins the game for the mover. */
  lemma RowCompletionWins(g: Game, row: int, col: int)
    requires Valid(g) && |g.winningStrategies| > 0
    requires RowWinning.InSync(g.winningStrategies[0], g.board)
    requires ValidateMove(g.board, MoveOf(g, row, col))
    ensures var m := MoveOf(g, row, col);
            var g1 := MakeMove(g, row, col);
            var full := forall j :: 0 <= j < g.board.dimension ==> Bears(g1.board.grid[row][j], m.player.symbol);
            && (RowWinning.CheckWinner(g.winningStrategies[0], g1.board, m).won <==> full)
            && (full ==> g1.state == GameWon && g1.winner == Some(m.player))
  {
    var m := MoveOf(g, row, col);
    RowWinning.CheckKeepsSync(g.winningStrategies[0], g.board, m);
  }

  /** Undoing a winning move on a game whose strategies all agreed with the board
      succeeds (on a board of dimension two or more). The strategies that checked the
      move agree with the restored board again, but every strategy the win
      short-circuited then disagrees with it, in exactly one entry: one below the
      board for the move's row and symbol. */
  lemma UndoOfWinDesyncsSkippedStrategies(g: Game, row: int, col: int)
    requires Valid(g) && AllInSync(g) && g.board.dimension >= 2
    requires ValidateMove(g.board, MoveOf(g, row, col))
    requires CheckWinner(g.winningStrategies, MakeMove(g, row, col).board, MoveOf(g, row, col)).won
    ensures var m := MoveOf(g, row, col);
            var g1 := MakeMove(g, row, col);
            var v := CheckWinner(g.winningStrategies, g1.board, m);
            var u := Undo(g1);
            && u.Success?
            && u.value.board == g.board
            && (forall i :: 0 <= i < v.consulted ==>
                  RowWinning.InSync(u.value.winningStrategies[i], u.value.board))
            && (forall i :: v.consulted <= i < |g.winningStrategies| ==>
                  !RowWinning.InSync(u.value.winningStrategies[i], u.value.board))
            && (forall i :: v.consulted <= i < |g.winningStrategies| ==>
                  && RowWinning.InSyncExcept(u.value.winningStrategies[i], u.value.board, row, m.player.symbol)
                  && RowWinning.Count(u.value.winningStrategies[i].rowCounts, row, m.player.symbol)
                     == SymbolCount(u.value.board.grid[row], m.player.symbol) - 1)
  {
    var m := MoveOf(g, row, col);
    var g1 := MakeMove(g, row, col);
    var v := CheckWinner(g.winningStrategies, g1.board, m);
    var ws := g.winningStrategies;
    var s := m.player.symbol;
    var winning := ws[v.consulted - 1];
    assert RowWinning.Count(winning.rowCounts, row, s) + 1 == g.board.dimension;
    assert RowWinning.Count(winning.rowCounts, row, s) == SymbolCount(g.board.grid[row], s);
    forall i | v.consulted <= i < |ws|
      ensures (row, s) in ws[i].rowCounts
    {
      assert RowWinning.Count(ws[i].rowCounts, row, s) == SymbolCount(g.board.grid[row], s);
    }
    UndoAfterMakeMove(g, row, col);
  }

  /** A bot's proposed move is always accepted: it is the current player's move on an
      EMPTY cell inside the board. Only a full board makes the Easy policy offer a
      move without a cell. */
  lemma BotMoveIsAccepted(g: Game)
    requires Valid(g) && g.players[g.nextPlayerIndex].BotPlayer?
    ensures var p := g.players[g.nextPlayerIndex];
            var o := BotPlayers.MakeMove(p, g.board);
            && (o.Proposed? ==> o.move == MoveOf(g, o.move.row, o.move.col)
                                && ValidateMove(g.board, o.move))
            && (o.NoEmptyCell? ==> forall i, j :: InBounds(g.board, i, j) ==> g.board.grid[i][j].state == Filled)
  {
    var p := g.players[g.nextPlayerIndex];
    var o := BotPlayers.MakeMove(p, g.board);
    EasyBotPlayingStrategy.MoveIsOnBoard(g.board);
  }

  /** A game built with freshly constructed row strategies starts with all of them in
      agreement with its empty board. */
  lemma BuiltGameInSync(dimension: int, players: seq<Player>, k: nat)
    requires Build(dimension, players, seq(k, _ => RowWinning.NewRowWinningStrategy())).Success?
    ensures var g := Build(dimension, players, seq(k, _ => RowWinning.NewRowWinningStrategy())).value;
            |g.winningStrategies| == k && AllInSync(g)
  {
    var g := Build(dimension, players, seq(k, _ => RowWinning.NewRowWinningStrategy())).value;
    forall i, r, s | 0 <= i < k && 0 <= r < g.board.dimension
      ensures RowWinning.Count(g.winningStrategies[i].rowCounts, r, s) == SymbolCount(g.board.grid[r], s)
    {
      SymbolCountUnowned(g.board.grid[r], s);
    }
  }
}

=== FILE: players.dfy ===
/** Players of the game: humans and bots, each identified by a one-character symbol. */
module Players {
  import opened Wrappers

  datatype PlayerType = Human | Bot

  /** Bot difficulty levels. The enum declaration itself is not part of this model: the
      three levels the strategy factory names are explicit, and any further level the
      enum might declare is represented by OtherLevel. */
  datatype Difficulty = Easy | Medium | Hard | OtherLevel(levelName: string)

  /** The move-selection policies a bot can be bound to. The factory only ever yields
      the Easy policy (first empty cell in row-major order). */
  datatype BotStrategy = EasyBotStrategy

  /** A player. Both variants carry the fields of the common base class (id, name,
      symbol); a bot also holds its difficulty and the strategy resolved for it, which
      is absent (null) when the factory knows no strategy for the difficulty. */
  datatype Player =
    | HumanPlayer(id: string, name: string, symbol: char)
    | BotPlayer(id: string, name: string, symbol: char,
                difficulty: Difficulty, strategy: Option<BotStrategy>)
  {
    /** The player's type. Each subclass passes a fixed type to the base class, so the
        type follows from the variant and no value can carry a mismatched one. */
    function Type(): PlayerType {
      if HumanPlayer? then Human else Bot
    }
  }

  /** The human player constructor: the type is fixed to HUMAN. */
  function NewHumanPlayer(id: string, name: string, symbol: char): (p: Player)
    ensures p.HumanPlayer? && p.Type() == Human
    ensures p.id == id && p.name == name && p.symbol == symbol
  {
    HumanPlayer(id, name, symbol)
  }
}

=== FILE: row_winning.dfy ===
/** The row winning strategy: an incremental count, per row and symbol, of the marks
    placed in that row, reporting a win when one symbol fills a whole row. */
module RowWinning {
  import opened Wrappers
  import opened Players
  import opened Boards

  /** The strategy's state: (row index, symbol) -> running count. The source nests
      two hash maps; one flat map over pairs has the same entries. */
  datatype WinningStrategy = RowWinningStrategy(rowCounts: map<(int, char), int>)

  /** A freshly constructed strategy has no entries. */
  function NewRowWinningStrategy(): (ws: WinningStrategy)
    ensures ws.rowCounts == map[]
    ensures forall r, s :: Count(ws.rowCounts, r, s) == 0
  {
    RowWinningStrategy(map[])
  }

  /** The count kept for (r, s), an absent entry reading as 0. */
  function Count(counts: map<(int, char), int>, r: int, s: char): int {
    if (r, s) in counts then counts[(r, s)] else 0
  }

  /** Two strategies hold the same count for every (row, symbol), whether or not an
      entry is present at 0. */
  ghost predicate SameCounts(a: WinningStrategy, b: WinningStrategy) {
    forall r, s :: Count(a.rowCounts, r, s) == Count(b.rowCounts, r, s)
  }

  /** The result of checking one move: the verdict and the updated strategy. */
  datatype Checked = Checked(won: bool, strategy: WinningStrategy)

  /** Records the move: the count of (move's row, mover's symbol) grows by one,
      starting from 0 when absent, and the move wins when that count has reached the
      board dimension. No other entry is touched. */
  function CheckWinner(ws: WinningStrategy, b: Board, m: Move): (r: Checked)
    ensures (m.row, m.player.symbol) in r.strategy.rowCounts
    ensures Count(r.strategy.rowCounts, m.row, m.player.symbol)
            == Count(ws.rowCounts, m.row, m.player.symbol) + 1
    ensures r.strategy.rowCounts.Keys == ws.rowCounts.Keys + {(m.row, m.player.symbol)}
    ensures forall k :: k in ws.rowCounts && k != (m.row, m.player.symbol) ==>
              r.strategy.rowCounts[k] == ws.rowCounts[k]
    ensures r.won <==> Count(ws.rowCounts, m.row, m.player.symbol) + 1 == b.dimension
  {
    var key := (m.row, m.player.symbol);
    var counts := if key in ws.rowCounts then ws.rowCounts else ws.rowCounts[key := 0];
    var counts' := counts[key := counts[key] + 1];
    Checked(counts'[key] == b.dimension, RowWinningStrategy(counts'))
  }

  /** Rolls the move back: the count of (move's row, mover's symbol) shrinks by one.
      An absent entry is a null dereference in the source, modelled as None. No other
      entry is touched and no entry is removed. */
  function HandleUndo(ws: WinningStrategy, m: Move): (r: Option<WinningStrategy>)
    ensures r.Some? <==> (m.row, m.player.symbol) in ws.rowCounts
    ensures r.Some? ==> Count(r.value.rowCounts, m.row, m.player.symbol)
                        == Count(ws.rowCounts, m.row, m.player.symbol) - 1
    ensures r.Some? ==> r.value.rowCounts.Keys == ws.rowCounts.Keys
    ensures r.Some? ==> forall k :: k in ws.rowCounts && k != (m.row, m.player.symbol) ==>
                          r.value.rowCounts[k] == ws.rowCounts[k]
  {
    var key := (m.row, m.player.symbol);
    if key !in ws.rowCounts then None
    else Some(RowWinningStrategy(ws.rowCounts[key := ws.rowCounts[key] - 1]))
  }

  /** Undoing a move right after checking it never dereferences null and restores every
      count; only an entry the check created may remain, at 0. */
  lemma CheckThenUndoRestoresCounts(ws: WinningStrategy, b: Board, m: Move)
    ensures var u := HandleUndo(CheckWinner(ws, b, m).strategy, m);
            && u.Some?
            && SameCounts(u.value, ws)
            && ws.rowCounts.Keys <= u.value.rowCounts.Keys
  {
    var c := CheckWinner(ws, b, m).strategy;
    var u := HandleUndo(c, m).value;
    forall r, s ensures Count(u.rowCounts, r, s) == Count(ws.rowCounts, r, s) {
      if (r, s) != (m.row, m.player.symbol) {
        assert Count(u.rowCounts, r, s) == Count(c.rowCounts, r, s);
      }
    }
  }

  /** The counting invariant: for every row of the board and every symbol, the count
      equals the number of cells in that row bearing the symbol. */
  ghost predicate InSync(ws: WinningStrategy, b: Board)
    requires WellFormed(b)
  {
    forall r, s :: 0 <= r < b.dimension ==> Count(ws.rowCounts, r, s) == SymbolCount(b.grid[r], s)
  }

  /** The counting invariant everywhere except, possibly, for `row` and symbol `s`. */
  ghost predicate InSyncExcept(ws: WinningStrategy, b: Board, row: int, s: char)
    requires WellFormed(b)
  {
    forall r, t :: 0 <= r < b.dimension && (r != row || t != s) ==>
      Count(ws.rowCounts, r, t) == SymbolCount(b.grid[r], t)
  }

  /** Checking a move just placed on an EMPTY cell keeps the counting invariant, and
      the check reports a win exactly when every cell of the move's row now bears the
      mover's symbol. */
  lemma {:induction false} CheckKeepsSync(ws: WinningStrategy, b: Board, m: Move)
    requires WellFormed(b) && InBounds(b, m.row, m.col)
    requires b.grid[m.row][m.col].state == Empty
    requires InSync(ws, b)
    ensures var b' := Occupy(b, m.row, m.col, m.player);
            var c := CheckWinner(ws, b', m);
            && InSync(c.strategy, b')
            && (c.won <==> forall j :: 0 <= j < b.dimension ==> Bears(b'.grid[m.row][j], m.player.symbol))
  {
    var b' := Occupy(b, m.row, m.col, m.player);
    var c := CheckWinner(ws, b', m);
    var filled := Cell(m.row, m.col, Filled, Some(m.player));
    assert !Bears(b.grid[m.row][m.col], m.player.symbol) by {
      assert CellAt(b.grid[m.row][m.col], m.row, m.col);
    }
    forall r, s | 0 <= r < b'.dimension
      ensures Count(c.strategy.rowCounts, r, s) == SymbolCount(b'.grid[r], s)
    {
      if r == m.row {
        SymbolCountUpdate(b.grid[r], m.col, filled, s);
        assert CellAt(b.grid[r][m.col], r, m.col);
      }
    }
    SymbolCountFull(b'.grid[m.row], m.player.symbol);
  }

  /** Rolling back the last mark of a cell keeps the counting invariant, and never
      dereferences null, because the counted mark guarantees the entry exists. */
  lemma {:induction false} UndoKeepsSync(ws: WinningStrategy, b: Board, m: Move)
    requires WellFormed(b) && InBounds(b, m.row, m.col)
    requires b.grid[m.row][m.col] == Cell(m.row, m.col, Filled, Some(m.player))
    requires InSync(ws, b)
    ensures var u := HandleUndo(ws, m);
            u.Some? && InSync(u.value, Clear(b, m.row, m.col))
  {
    var b' := Clear(b, m.row, m.col);
    SymbolCountUpdate(b.grid[m.row], m.col, FreshCell(m.row, m.col), m.player.symbol);
    assert Count(ws.rowCounts, m.row, m.player.symbol) >= 1;
    var u := HandleUndo(ws, m).value;
    forall r, s | 0 <= r < b'.dimension
      ensures Count(u.rowCounts, r, s) == SymbolCount(b'.grid[r], s)
    {
      if r == m.row {
        SymbolCountUpdate(b.grid[r], m.col, FreshCell(m.row, m.col), s);
      }
    }
  }
}

=== FILE: scenario.dfy ===
/** A concrete game on a 3×3 board between a human 'X' and a human 'O', checked by
    `k >= 1` row strategies: X completes row 0 on the fifth move, and undo takes it back.
    Only the first strategy sees the winning move, so with two or more strategies the
    others end out of step with the board. */
module Scenario {
  import opened Wrappers
  import opened Players
  import opened Boards
  import opened Games
  import RowWinning
  import DimensionAndPlayerCount
  import GameProperties

  function X(): Player { NewHumanPlayer("x", "Player X", 'X') }
  function O(): Player { NewHumanPlayer("o", "Player O", 'O') }

  /** `k` freshly constructed row strategies. */
  function Strategies(k: nat): seq<RowWinning.WinningStrategy> {
    seq(k, _ => RowWinning.NewRowWinningStrategy())
  }

  function Start(k: nat): Result<Game, DimensionAndPlayerCount.ConfigError> {
    Build(3, [X(), O()], Strategies(k))
  }

  /** The facts the scenario tracks between moves: whose turn it is, how many moves
      were made, the counts of X in row 0 and of O in row 1 held by the first
      strategy, and the cells still EMPTY. Every strategy agrees with the board. */
  ghost predicate Tracked(g: Game, k: nat, turn: int, made: int, xRow0: int, oRow1: int, empty: seq<(int, int)>) {
    && Valid(g) && g.players == [X(), O()] && g.board.dimension == 3
    && |g.winningStrategies| == k && k >= 1 && GameProperties.AllInSync(g)
    && g.state == InProgress
    && g.nextPlayerIndex == turn && |g.moves| == made
    && RowWinning.Count(g.winningStrategies[0].rowCounts, 0, 'X') == xRow0
    && RowWinning.Count(g.winningStrategies[0].rowCounts, 1, 'O') == oRow1
    && (forall e :: 0 <= e < |empty| ==>
          InBounds(g.board, empty[e].0, empty[e].1) && g.board.grid[empty[e].0][empty[e].1].state == Empty)
  }

  lemma Started(k: nat)
    requires k >= 1
    ensures Start(k).Success?
    ensures Tracked(Start(k).value, k, 0, 0, 0, 0, [(0, 0), (1, 1), (0, 1), (1, 2), (0, 2)])
  {
    GameProperties.BuiltGameInSync(3, [X(), O()], k);
  }

  /** A move onto a row where the mover holds fewer than two cells wins for no strategy,
      since every strategy counts what the board shows. */
  lemma NoStrategyWins(g: Game, k: nat, row: int, col: int)
    requires Valid(g) && g.board.dimension == 3 && |g.winningStrategies| == k && k >= 1
    requires GameProperties.AllInSync(g)
    requires ValidateMove(g.board, GameProperties.MoveOf(g, row, col))
    requires var s := GameProperties.MoveOf(g, row, col).player.symbol;
             RowWinning.Count(g.winningStrategies[0].rowCounts, row, s) < 2
    ensures !CheckWinner(g.winningStrategies, MakeMove(g, row, col).board, GameProperties.MoveOf(g, row, col)).won
    ensures GameProperties.AllInSync(MakeMove(g, row, col))
    ensures var s := GameProperties.MoveOf(g, row, col).player.symbol;
            var w1 := MakeMove(g, row, col).winningStrategies[0];
            && RowWinning.Count(w1.rowCounts, row, s) == RowWinning.Count(g.winningStrategies[0].rowCounts, row, s) + 1
            && forall r, t :: (r != row || t != s) ==>
                 RowWinning.Count(w1.rowCounts, r, t) == RowWinning.Count(g.winningStrategies[0].rowCounts, r, t)
  {
    var m := GameProperties.MoveOf(g, row, col);
    var b1 := MakeMove(g, row, col).board;
    var ws := g.winningStrategies;
    var s := m.player.symbol;
    forall i | 0 <= i < k
      ensures !RowWinning.CheckWinner(ws[i], b1, m).won
    {
      assert RowWinning.Count(ws[i].rowCounts, row, s) == SymbolCount(g.board.grid[row], s);
      assert RowWinning.Count(ws[0].rowCounts, row, s) == SymbolCount(g.board.grid[row], s);
    }
    GameProperties.MakeMoveKeepsSync(g, row, col);
  }

  /** One non-winning move by the player due onto a tracked EMPTY cell. */
  lemma QuietMove(g: Game, k: nat, turn: int, made: int, xRow0: int, oRow1: int, empty: seq<(int, int)>)
    requires Tracked(g, k, turn, made, xRow0, oRow1, empty)
    requires |empty| > 0 && made < 8
    requires forall e :: 1 <= e < |empty| ==> empty[e] != empty[0]
    requires turn == 0 ==> empty[0].0 == 0 && xRow0 < 2
    requires turn == 1 ==> empty[0].0 == 1 && oRow1 < 2
    ensures Tracked(MakeMove(g, empty[0].0, empty[0].1), k, 1 - turn, made + 1,
                    if turn == 0 then xRow0 + 1 else xRow0,
                    if turn == 1 then oRow1 + 1 else oRow1, empty[1..])
  {
    var (row, col) := empty[0];
    var m := Move(row, col, g.players[turn]);
    assert ValidateMove(g.board, m);
    NoStrategyWins(g, k, row, col);
    var g1 := MakeMove(g, row, col);
    forall e | 0 <= e < |empty| - 1
      ensures g1.board.grid[empty[1..][e].0][empty[1..][e].1].state == Empty
    {
      assert empty[1..][e] == empty[e + 1];
    }
  }

  /** The end of the scenario: X has won with five moves, and undo brings back the game
      before the fifth move, IN_PROGRESS, X to move, (0, 2) EMPTY. The first strategy,
      which reported the win, agrees with the restored board; every other one does not. */
  ghost predicate WonThenUndone(g5: Game)
    requires Valid(g5)
  {
    && g5.state == GameWon && g5.winner == Some(X()) && |g5.moves| == 5
    && var u := Undo(g5);
       && u.Success?
       && u.value.state == InProgress && u.value.winner.None? && u.value.board.dimension == 3
       && u.value.board.grid[0][2].state == Empty
       && u.value.players[u.value.nextPlayerIndex] == X()
       && |u.value.winningStrategies| >= 1
       && RowWinning.InSync(u.value.winningStrategies[0], u.value.board)
       && (forall i :: 1 <= i < |u.value.winningStrategies| ==>
             !RowWinning.InSync(u.value.winningStrategies[i], u.value.board))
  }

  /** The fifth move: X takes (0, 2) and completes row 0; then it is undone. */
  lemma WinThenUndo(g: Game, k: nat)
    requires Tracked(g, k, 0, 4, 2, 2, [(0, 2)])
    ensures WonThenUndone(MakeMove(g, 0, 2))
  {
    var m := Move(0, 2, X());
    assert [(0, 2)][0] == (0, 2);
    assert ValidateMove(g.board, m);
    var g5 := MakeMove(g, 0, 2);
    var v := CheckWinner(g.winningStrategies, g5.board, m);
    assert RowWinning.CheckWinner(g.winningStrategies[0], g5.board, m).won;
    assert v.won && v.consulted == 1;
    GameProperties.UndoOfWinDesyncsSkippedStrategies(g, 0, 2);
    GameProperties.UndoAfterMakeMove(g, 0, 2);
  }

  /** Plays the listed cells in turn, one committed-or-rejected attempt each. */
  function Play(g: Game, cells: seq<(int, int)>): (r: Game)
    requires Valid(g)
    ensures Valid(r)
    decreases |cells|
  {
    if |cells| == 0 then g else Play(MakeMove(g, cells[0].0, cells[0].1), cells[1..])
  }

  lemma From4(g: Game, k: nat)
    requires Tracked(g, k, 0, 4, 2, 2, [(0, 2)])
    ensures WonThenUndone(Play(g, [(0, 2)]))
  {
    WinThenUndo(g, k);
    assert [(0, 2)][1..] == [];
  }

  lemma From3(g: Game, k: nat)
    requires Tracked(g, k, 1, 3, 2, 1, [(1, 2), (0, 2)])
    ensures WonThenUndone(Play(g, [(1, 2), (0, 2)]))
  {
    var cells := [(1, 2), (0, 2)];
    QuietMove(g, k, 1, 3, 2, 1, cells);
    assert cells[1..] == [(0, 2)];
    From4(MakeMove(g, 1, 2), k);
  }

  lemma From2(g: Game, k: nat)
    requires Tracked(g, k, 0, 2, 1, 1, [(0, 1), (1, 2), (0, 2)])
    ensures WonThenUndone(Play(g, [(0, 1), (1, 2), (0, 2)]))
  {
    var cells := [(0, 1), (1, 2), (0, 2)];
    QuietMove(g, k, 0, 2, 1, 1, cells);
    assert cells[1..] == [(1, 2), (0, 2)];
    From3(MakeMove(g, 0, 1), k);
  }

  lemma From1(g: Game, k: nat)
    requires Tracked(g, k, 1, 1, 1, 0, [(1, 1), (0, 1), (1, 2), (0, 2)])
    ensures WonThenUndone(Play(g, [(1, 1), (0, 1), (1, 2), (0, 2)]))
  {
    var cells := [(1, 1), (0, 1), (1, 2), (0, 2)];
    QuietMove(g, k, 1, 1, 1, 0, cells);
    assert cells[1..] == [(0, 1), (1, 2), (0, 2)];
    From2(MakeMove(g, 1, 1), k);
  }

  /** Moves (0,0) X, (1,1) O, (0,1) X, (1,2) O, (0,2) X on the built game with `k`
      row strategies: the fifth move wins for X; undoing it leaves the game
      IN_PROGRESS with X to move again and (0,2) EMPTY, the first strategy back in step
      with the board and every further strategy out of step. */
  lemma RowZeroWinThenUndo(k: nat)
    requires k >= 1
    ensures Start(k).Success?
    ensures WonThenUndone(Play(Start(k).value, [(0, 0), (1, 1), (0, 1), (1, 2), (0, 2)]))
  {
    Started(k);
    var g0 := Start(k).value;
    var cells := [(0, 0), (1, 1), (0, 1), (1, 2), (0, 2)];
    QuietMove(g0, k, 0, 0, 0, 0, cells);
    assert cells[1..] == [(1, 1), (0, 1), (1, 2), (0, 2)];
    From1(MakeMove(g0, 0, 0), k);
  }
}

=== FILE: turn_arith.dfy ===
/** Facts about the round-robin turn index, computed with the remainder operator on
    non-negative operands (where Java's % and Dafny's % agree). */
module TurnArith {

  /** The remainder is determined by any decomposition x = q * n + r with 0 <= r < n. */
  lemma ModUnique(x: int, q: int, r: int, n: int)
    requires n > 0 && 0 <= r < n && x == q * n + r
    ensures x % n == r
  {
    var q' := x / n;
    var r' := x % n;
    var d := q - q';
    assert x == q' * n + r';
    assert d * n == q * n - q' * n;
    assert d * n == r' - r;
  }

  /** Passing the turn on from the index for `a` moves gives the index for a + 1. */
  lemma StepForward(a: int, n: int)
    requires n > 0 && a >= 0
    ensures (a % n + 1) % n == (a + 1) % n
  {
    var q := a / n;
    var r := a % n;
    assert a == q * n + r;
    if r + 1 < n {
      ModUnique(r + 1, 0, r + 1, n);
      ModUnique(a + 1, q, r + 1, n);
    } else {
      ModUnique(r + 1, 1, 0, n);
      ModUnique(a + 1, q + 1, 0, n);
    }
  }

  /** Stepping the turn back from the index for `a` moves gives the index for a - 1. */
  lemma StepBack(a: int, n: int)
    requires n > 0 && a >= 1
    ensures (a % n - 1 + n) % n == (a - 1) % n
  {
    var q := a / n;
    var r := a % n;
    assert a == q * n + r;
    if r >= 1 {
      ModUnique(r - 1 + n, 1, r - 1, n);
      ModUnique(a - 1, q, r - 1, n);
    } else {
      ModUnique(n - 1, 0, n - 1, n);
      ModUnique(a - 1, q - 1, n - 1, n);
    }
  }

  /** Stepping back right after stepping forward returns to the same index. */
  lemma ForwardThenBack(i: int, n: int)
    requires 0 <= i < n
    ensures ((i + 1) % n - 1 + n) % n == i
  {
    if i + 1 < n {
      ModUnique(i + 1, 0, i + 1, n);
      ModUnique(i + n, 1, i, n);
    } else {
      ModUnique(i + 1, 1, 0, n);
      ModUnique(n - 1, 0, n - 1, n);
    }
  }
}

=== FILE: validation.dfy ===
/** The start-up check on a game's configuration. */
module DimensionAndPlayerCount {
  import opened Wrappers

  datatype ConfigError = InvalidPlayerCount | DimensionAndPlayerCountMismatch

  /** Returns normally (None) or with the exception it throws. The player-count check
      comes first, so it wins when both conditions fail. */
  function Validate(dimension: int, playerCount: nat): (r: Option<ConfigError>)
    ensures r == Some(InvalidPlayerCount) <==> playerCount <= 1
    ensures r == Some(DimensionAndPlayerCountMismatch) <==> 1 < playerCount && dimension <= playerCount
    ensures r.None? <==> 1 < playerCount < dimension
    ensures r.None? ==> dimension >= 3
  {
    if playerCount <= 1 then Some(InvalidPlayerCount)
    else if playerCount >= dimension then Some(DimensionAndPlayerCountMismatch)
    else None
  }
}

=== FILE: wrappers.dfy ===
/** Failure-carrying results used in place of Java's null references and exceptions. */
module Wrappers {

  /** A value that may be absent; None stands for a Java null. */
  datatype Option<+T> = None | Some(value: T)

  /** Either a value or the error that aborted the computation (a thrown exception). */
  datatype Result<+T, +E> = Success(value: T) | Failure(error: E)
}
